=== FILE: README.md ===
# Listener matchers of a Bolt-style bot framework, in Dafny

This project models the built-in listener matchers of `slack_bolt`
(`slack_bolt/listener_matcher/builtins.py`). A handler is registered with a
constraint: a literal string, a compiled regular expression, or a dict with keys
such as `type`, `callback_id`, `action_id`, `block_id` and `subtype`. A builder
(`event`, `command`, `shortcut`, `action`, `view`, `options` and their refined
forms) turns that constraint into a predicate over the inbound payload body.
A builder decides at build time which kind of predicate to return, from the
constraint's shape, and raises `BoltError` for a shape it does not accept. The
predicate is then evaluated on every payload.

Modules:

- `Results`: the `Result` type. `Err` stands for a Python exception.
- `Constraints`: the constraint shapes, the `Operand` a constraint value becomes
  (None, str, Pattern or any other value), and the `Fault`s. A `Fault` is one of
  the source's exceptions: `BoltError` variants, `KeyError`, `TypeError`.
- `Payload`: JSON bodies, dict subscripting and `.get`, and the classifier names.
- `Matching`: `_matches`, and `Env`. `Env` holds the collaborators the matchers
  call but this model does not contain: the `is_*` classifiers, `to_action` and
  `Pattern.search`. Every property holds for every `Env`.
- `Predicates`: the closures the builders return, as a `Pred` datatype. `Eval`
  evaluates a `Pred` on a body. `Or` is Python's short-circuiting `or`.
- `Builtins`: one function per builder, with build-time dispatch and its errors.
- `Semantics`: what each built matcher means on a payload.
- `Registrations`: the sample application's event registrations, on concrete payloads.

Facts about the code that a reader might not expect:

- Once a predicate's kind check has passed, it subscripts the fields it reads
  directly, so a missing field raises `KeyError`. The model gives
  `Err(KeyMissing(..))` there. Three absences are plain misses instead: the
  action's `block_id`, read with `.get` (line 250), and the event's `subtype`
  (lines 95-101) and `workflow_step` (line 122), both tested with `in`.
- Two configuration errors happen only when a payload is evaluated, never at
  build time: `_matches` rejects a constraint value that is neither a str nor a
  Pattern, and a block-action dict without `action_id` raises `KeyError`.
- A payload can make a matcher raise too: a Pattern constraint searched in a
  payload field that is present, not None and not a string raises `TypeError`
  (line 464), while a str constraint gives false there.
- A `view` or `action` dict whose `type` needs a `callback_id` but lacks one
  raises `KeyError` at build time, not `BoltError`. A `shortcut` dict without
  `callback_id` raises `BoltError`.

## Model

| member | source | states |
|---|---|---|
| Matching.Matches | slack_bolt/listener_matcher/builtins.py:455-468 | None on either side gives false. A str constraint never raises and matches exactly the equal string. The result is true exactly on a string input that satisfies the constraint (equality, or unanchored search for a Pattern). Any other constraint type raises a BoltError. A Pattern searched in a non-string raises. |
| Builtins.Event | slack_bolt/listener_matcher/builtins.py:76-111 | Building fails exactly for a dict without `type`, with a BoltError naming the event builder and the constraint. Every matcher built only accepts payloads the event classifier accepts. |
| Semantics.EventPlainSemantics | slack_bolt/listener_matcher/builtins.py:80-86 | A literal or pattern event constraint always builds. On an event payload it matches iff `event.type` is a string that satisfies it. A payload that is not an event gives false. A missing `event`/`type` raises. A non-string `type` never matches: false for a str constraint, `TypeError` for a Pattern. |
| Semantics.EventSubtypeRule | slack_bolt/listener_matcher/builtins.py:88-105 | For an event dict: a `type` mismatch gives false. With no `subtype` key, only `type` counts. `subtype: None` matches iff the event has no `subtype`. Any other subtype must be present and match. |
| Registrations.MessageRegistrations | samples/flask/app.py:109-120 | The sample's two event registrations on concrete payloads: `{type: "message", subtype: "message_deleted"}` matches the deleted-message event and not a plain message, and `{type: "message"}` matches both. One added case, not in the sample: `{type: "message", subtype: None}` matches only the plain message. |
| Builtins.WorkflowStepExecute | slack_bolt/listener_matcher/builtins.py:114-126 | Only event payloads can match. |
| Semantics.WorkflowStepExecuteSemantics | slack_bolt/listener_matcher/builtins.py:114-126 | False when the event's `type` is anything but the string `workflow_step_execute` (a non-string included), and false when the event has no `workflow_step`. Otherwise a missing `callback_id` raises `KeyError`, and a present one, whatever its value, decides exactly as `Matching.Matches` does (a None one gives false). |
| Builtins.Command | slack_bolt/listener_matcher/builtins.py:133-140 | Only slash-command payloads can match. |
| Semantics.CommandSemantics | slack_bolt/listener_matcher/builtins.py:133-140 | On a slash-command payload it matches iff `command` is a string that satisfies the constraint. Any other payload gives false. A None command gives false. A missing command raises. A non-string `command` never matches: false for a str constraint, `TypeError` for a Pattern. |
| Semantics.FieldMatchIsGuarded | slack_bolt/listener_matcher/builtins.py:137-138 | The guarded-field shape `is_K(body) and _matches(x, body[...])`: false off kind K; raises on an unreachable field; false on a None field or a None constraint; on a string field, decided by `Satisfies`; on any other field value, false for a str constraint and `TypeError` for a Pattern; a constraint value that is neither None, str nor Pattern raises a BoltError once the field is reached and is not None. Conversely, a match needs kind K and a string field satisfying the constraint. |
| Builtins.Shortcut | slack_bolt/listener_matcher/builtins.py:147-167 | A plain constraint builds a matcher guarded by the any-shortcut classifier. `{type: "shortcut", callback_id}` builds exactly the global-shortcut matcher, and `{type: "message_action", callback_id}` exactly the message-shortcut one. Building fails, with a BoltError naming the shortcut builder, iff a dict lacks `callback_id` or has another `type`. |
| Builtins.GlobalShortcut | slack_bolt/listener_matcher/builtins.py:170-177 | Only global-shortcut payloads can match. |
| Builtins.MessageShortcut | slack_bolt/listener_matcher/builtins.py:180-187 | Only message-shortcut payloads can match. |
| Semantics.ShortcutSemantics | slack_bolt/listener_matcher/builtins.py:151-187 | The plain, global and message shortcut matchers each match their own kind by `callback_id`, with the guarded-field behaviour of `Semantics.FieldMatchIsGuarded`: a match needs a string `callback_id` satisfying the constraint. A field that is any other non-None value never matches: false for a str constraint, `TypeError` for a Pattern. |
| Builtins.Action | slack_bolt/listener_matcher/builtins.py:194-232 | A plain constraint builds a matcher guarded by exactly the five action kinds. Each of the five `type` values delegates to its own builder, and the four `callback_id` ones raise `KeyError` without `callback_id`. Any other `type` raises an error carrying that type. A dict with `action_id` and no `type` is exactly `block_action`. A dict with neither key raises a BoltError naming the action builder. |
| Builtins.PlainActionAlternatives | slack_bolt/listener_matcher/builtins.py:198-207 | The five alternatives of a plain action constraint, in source order. The i-th is guarded by exactly the i-th action kind, and together they cover exactly the five action kinds. |
| Semantics.ActionPlainIsDisjunction | slack_bolt/listener_matcher/builtins.py:198-207 | When none of the five raises, a plain action constraint matches iff one of the block, attachment, dialog-submission, dialog-cancellation and workflow-step-edit matchers does. |
| Semantics.ActionPlainIsPythonChain | slack_bolt/listener_matcher/builtins.py:200-207 | The plain action matcher, built as a right fold, evaluates exactly like Python's left-grouped five-way `or` chain over the same alternatives, on every payload. |
| Semantics.ActionPlainExclusive | slack_bolt/listener_matcher/builtins.py:198-207 | When the payload is exactly one of the five action kinds, the plain action matcher gives the same result, or raises the same error, as that kind's own matcher. |
| Semantics.ActionPlainNoKind | slack_bolt/listener_matcher/builtins.py:198-207 | A payload of none of the five action kinds gives false and never raises. |
| Builtins.BlockAction | slack_bolt/listener_matcher/builtins.py:256-263 | Only `block_actions` payloads can match. |
| Semantics.BlockActionSemantics | slack_bolt/listener_matcher/builtins.py:235-245 | A non-`block_actions` payload gives false for any constraint, and never raises. For a plain constraint, the action's `action_id`, whatever its value, decides exactly as `Matching.Matches` does (a None one gives false); if `action["action_id"]` raises, that error is the result. |
| Semantics.BlockActionDictSemantics | slack_bolt/listener_matcher/builtins.py:246-253 | With an absent or None `block_id` in the dict, only the action's `action_id` decides, as `Matching.Matches` does. Otherwise the action's `block_id` (None when absent, so false) and its `action_id` are both tested, the `block_id` first: the first error raised wins, and otherwise both must match. |
| Semantics.BothEvaluated | slack_bolt/listener_matcher/builtins.py:249-253 | `block_id_matched and action_id_matched` after both were computed: true iff both are true; an error in the first operand wins, then one in the second. |
| Semantics.BlockActionWithoutActionId | slack_bolt/listener_matcher/builtins.py:246-252 | On a `block_actions` payload, a dict without `action_id` never matches. With an absent or None `block_id` it raises `KeyError`. Otherwise the `block_id` test runs first: if it raises (for example when `to_action` gives a non-dict), that error is the result, and if it does not, the missing `action_id` raises `KeyError`. |
| Builtins.AttachmentAction | slack_bolt/listener_matcher/builtins.py:266-280 | Only attachment-action payloads can match. |
| Builtins.DialogSubmission | slack_bolt/listener_matcher/builtins.py:283-297 | Only dialog-submission payloads can match. |
| Builtins.DialogCancellation | slack_bolt/listener_matcher/builtins.py:300-314 | Only dialog-cancellation payloads can match. |
| Builtins.WorkflowStepEdit | slack_bolt/listener_matcher/builtins.py:317-331 | Only workflow-step-edit payloads can match. |
| Semantics.CallbackActionSemantics | slack_bolt/listener_matcher/builtins.py:266-331 | The four matchers each match their own kind by `callback_id`, with the guarded-field behaviour of `Semantics.FieldMatchIsGuarded`: a match needs a string `callback_id` satisfying the constraint. A field that is any other non-None value never matches: false for a str constraint, `TypeError` for a Pattern. |
| Builtins.View | slack_bolt/listener_matcher/builtins.py:338-352 | A plain constraint builds exactly the view-submission matcher. A dict of type `view_submission` or `view_closed` delegates to that builder, and raises `KeyError` without `callback_id`. Any other dict raises a BoltError naming the view builder. |
| Builtins.ViewSubmission | slack_bolt/listener_matcher/builtins.py:355-364 | Only view-submission payloads can match. |
| Builtins.ViewClosed | slack_bolt/listener_matcher/builtins.py:367-376 | Only view-closed payloads can match. |
| Builtins.WorkflowStepSave | slack_bolt/listener_matcher/builtins.py:379-388 | Only workflow-step-save payloads can match. |
| Semantics.ViewSemantics | slack_bolt/listener_matcher/builtins.py:355-388 | The three view matchers each match their own kind by `view.callback_id`, with the guarded-field behaviour of `Semantics.FieldMatchIsGuarded`: a match needs a string `view.callback_id` satisfying the constraint. A field that is any other non-None value never matches: false for a str constraint, `TypeError` for a Pattern. |
| Builtins.PlainOptionsAlternatives | slack_bolt/listener_matcher/builtins.py:399-404 | The two alternatives of a plain options constraint, in source order: the first is guarded by exactly the block-suggestion kind, the second by exactly the dialog-suggestion kind. |
| Builtins.Options | slack_bolt/listener_matcher/builtins.py:395-415 | A plain constraint builds a matcher guarded by exactly the two suggestion kinds. In a dict, `action_id` takes precedence over `callback_id`. A dict with neither key raises a BoltError naming the options builder. |
| Builtins.BlockSuggestion | slack_bolt/listener_matcher/builtins.py:418-432 | Only block-suggestion payloads can match. |
| Builtins.DialogSuggestion | slack_bolt/listener_matcher/builtins.py:435-449 | Only dialog-suggestion payloads can match. |
| Semantics.SuggestionSemantics | slack_bolt/listener_matcher/builtins.py:418-449 | Block suggestions match by `action_id` and dialog suggestions by `callback_id`, with the guarded-field behaviour of `Semantics.FieldMatchIsGuarded`: a match needs that field to be a string satisfying the constraint. A field that is any other non-None value never matches: false for a str constraint, `TypeError` for a Pattern. |
| Semantics.OptionsPlainIsDisjunction | slack_bolt/listener_matcher/builtins.py:399-406 | When neither raises, a plain options constraint matches iff the block-suggestion or the dialog-suggestion matcher does. |
| Semantics.OptionsPlainExclusive | slack_bolt/listener_matcher/builtins.py:399-406 | When the payload is exactly one of the two suggestion kinds, the plain options matcher behaves as that kind's matcher. |
| Semantics.AnyOfExclusive | slack_bolt/listener_matcher/builtins.py:200-207 | A disjunction of matchers, each guarded by its own classifier, behaves as the one alternative whose classifier alone holds. |
| Predicates.AnyOf | slack_bolt/listener_matcher/builtins.py:200-207 | The guards of an `or` chain are exactly the union of its alternatives' guards. |
| Predicates.GatedByClassifiers | slack_bolt/listener_matcher/builtins.py:198-207 | A payload that none of a matcher's guarding classifiers accepts gives false and never raises. This holds for composed matchers too. |
| Predicates.AnyOfFirstDecisive | slack_bolt/listener_matcher/builtins.py:200-207 | Short-circuiting: the first alternative that does not give false decides the whole `or`, whether it matched or raised. Later alternatives are never evaluated. |
| Predicates.AnyOfAllFalse | slack_bolt/listener_matcher/builtins.py:200-207 | If every alternative gives false, so does the `or`. |
| Predicates.AnyOfAllDefined | slack_bolt/listener_matcher/builtins.py:200-207 | If no alternative raises, the `or` is true iff some alternative is. |
| Predicates.AnyOfOneLive | slack_bolt/listener_matcher/builtins.py:200-207 | If every alternative but one gives false, the `or` equals that one. |
| Predicates.OrAssociative | slack_bolt/listener_matcher/builtins.py:200-207 | Python groups `a or b or c` to the left. The right fold used for the chain evaluates the same. |
| Predicates.Eval | slack_bolt/listener_matcher/builtins.py:198-207 | Evaluating any built matcher, composed or not: a match needs one of its guarding classifiers to accept the payload. What each closure means is stated per builder by the `Semantics` lemmas; `Predicates.GatedByClassifiers` adds that an unguarded payload never raises. |
| Predicates.EvalEventFields | slack_bolt/listener_matcher/builtins.py:88-105 | A match is an event payload whose `event.type` is a string satisfying the dict's `type`. Under `subtype: None` the matching event has no `subtype`; under any other `subtype` it has one, a string satisfying it. `Semantics.EventSubtypeRule` states the converse cases. |
| Predicates.EvalStepExecute | slack_bolt/listener_matcher/builtins.py:118-124 | A match is an event payload whose `event.type` is `workflow_step_execute`, whose event has a `workflow_step`, and whose `event.callback_id` is a string satisfying the constraint. `Semantics.WorkflowStepExecuteSemantics` states the converse and the error cases. |
| Predicates.EvalBlockAction | slack_bolt/listener_matcher/builtins.py:235-253 | A non-`block_actions` payload gives false. A match is a `block_actions` payload whose action's `action_id` is a string satisfying the constraint's (the plain constraint, or the dict's `action_id`), and whose `block_id` matches too when the dict names one. `Semantics.BlockActionSemantics`, `BlockActionDictSemantics` and `BlockActionWithoutActionId` state the converse and error cases. |
| Predicates.BlockIdMatches | slack_bolt/listener_matcher/builtins.py:248-251 | `_matches(block_id, action.get("block_id"))`: true iff the action is a dict whose `block_id` is a string satisfying the constraint. A missing `block_id` gives false; a non-dict action raises. |
| Payload.Subscript | slack_bolt/listener_matcher/builtins.py:92-93 | `d[key]` succeeds iff `d` is a dict holding `key`, with that value. A dict without the key raises `KeyError`; any other value raises. |
| Payload.Get | slack_bolt/listener_matcher/builtins.py:250 | `d.get(key)` succeeds iff `d` is a dict, giving the value or None. |
| Payload.Lookup | slack_bolt/listener_matcher/builtins.py:84 | A chain of subscripts `j[k1][k2]...`: the empty chain is `j`; a failing first step raises its own error; a successful chain starts at a dict holding the first key. |
| Payload.LookupAppend | slack_bolt/listener_matcher/builtins.py:84 | A chain of subscripts can be split anywhere: `j[p...][q...]` is the lookup of `q` in the result of `p`, and raises whatever `p` raises. |
| Constraints.Field | slack_bolt/listener_matcher/builtins.py:216 | `constraints[key]` on a constraint dict: succeeds iff the key is present, with its value, and otherwise raises `KeyError` for that key. This is the build-time `KeyError` of `action` and `view` (lines 216, 346). |
| Constraints.GetField | slack_bolt/listener_matcher/builtins.py:248 | `constraints.get(key)` never raises: it is the value `constraints[key]` gives where that succeeds, and None where it raises. |
| Constraints.Says | slack_bolt/listener_matcher/builtins.py:159-160 | `key in constraints and constraints[key] == t` holds iff the subscript succeeds with the str `t`; the membership test guards the subscript, so the test never raises (also lines 344-345). |

## Left out

- `BuiltinListenerMatcher` (lines 40-54) is not modelled. It introspects the predicate's parameter names and injects keyword arguments from the request and response objects. Those objects and `build_required_kwargs` are not part of this model. The model's predicates take the body directly.
- `build_listener_matcher` and the `asyncio` flag (lines 57-69) are not modelled. The flag only picks a synchronous or coroutine wrapper around the same predicate, so the builders here take no such parameter.
- The logger (line 44) and the Python-version switch for importing `Pattern` (lines 25-28) have no effect on matching.
- The `is_*` classifiers, `to_action` and regular-expression search are fields of `Env`, not definitions. `slack_bolt/request/payload_utils` is not part of this model. Nothing assumes the classifiers are mutually exclusive. The lemmas that need exclusivity state it as a precondition (`Exclusively`).
- Classifiers return a `bool`, so `is_block_actions(body) is False` (line 239) is modelled as plain negation.
- A top-level constraint that is not a str, a Pattern or a dict is not modelled. Dict values can be any value (`Operand.Foreign`). In Python, a value that supports no membership test (an int, None) raises `TypeError` at the first `in` test of each builder (line 88 for `event`). A container such as a list, tuple or set behaves as follows:
  - `event`: without `"type"` it raises `BoltError` (line 109). With it, the matcher builds, and evaluating it on an event payload raises `TypeError` at `constraints["type"]` (line 93).
  - `shortcut`: without both `"type"` and `"callback_id"` it raises `BoltError` (line 165). With both, `constraints["type"]` raises `TypeError` (line 160).
  - `action`: with `"type"`, `constraints["type"]` raises `TypeError` (line 212). Without it but with `"action_id"`, `block_action` builds (line 228); `_block_action` then fails both `isinstance` tests (lines 243, 246) and returns None, so the matcher never matches. With neither, it raises `BoltError` (line 230).
  - `view`: with `"type"`, `TypeError` (line 345); without it, `BoltError` (line 350).
  - `options`: with `"action_id"`, `TypeError` (line 409); otherwise with `"callback_id"`, `TypeError` (line 411); otherwise `BoltError` (line 413).
- A dict constraint is copied into the model's predicate when it is built. The Python closures of the `event` dict matcher (lines 90-105) and of `_block_action` (lines 243-252) hold the dict itself and read it on every evaluation, so changing the dict after registration changes what they match. Such mutation is not modelled.
- `to_action` and the `is_*` classifiers are total functions of `Env`, so the model assumes they never raise. The code calls them without a guard, and an exception from them would propagate out of the matcher.
- JSON numbers are integers. A float, like any other non-string, never equals a str constraint, and a Pattern searched in it raises `TypeError` (line 464), which the model gives for every number (`NotAString`); so this does not change any result.
- Idempotence of a built matcher holds by construction: `Eval` is a mathematical function. No lemma states it.
- Semantics.EventSubtypeRule: states the rule only for events whose `type` is a string and whose `subtype`, when present, is a string. A None `subtype` value, or a non-string one, follows `Matching.Matches`.
- Semantics.BlockActionDictSemantics: assumes `to_action` returns a dict holding `action_id` and a constraint dict holding `action_id`. A non-dict action, or a missing `action_id` on either side, raises; `Semantics.BlockActionWithoutActionId` and `Predicates.EvalBlockAction` state those cases.

=== FILE: builtins.dfy ===
/** The matcher builders. Each resolves the shape of its constraint once,
    when it is built, and yields the predicate evaluated on every payload,
    or the error that stops the listener from being registered. */
module Builtins {
  import opened Results
  import opened Constraints
  import opened Payload
  import opened Predicates

  /** The payload kinds a plain `action` constraint can match. */
  const ActionKinds: set<Classifier> :=
    {IsBlockActions, IsAttachmentAction, IsDialogSubmission, IsDialogCancellation, IsWorkflowStepEdit}

  /** The same kinds, in the order a plain `action` constraint tries them. */
  const ActionKindOrder: seq<Classifier> :=
    [IsBlockActions, IsAttachmentAction, IsDialogSubmission, IsDialogCancellation, IsWorkflowStepEdit]

  /** The `type` values a dict `action` constraint may carry. */
  const ActionTypes: set<Operand> :=
    {Text("block_actions"), Text("interactive_message"), Text("dialog_submission"),
     Text("dialog_cancellation"), Text("workflow_step_edit")}

  // ----- events

  /** `event(constraints)`: a plain constraint is matched against `event.type`;
      a dict must carry `type` (and may carry `subtype`); anything else is rejected. */
  function Event(c: Constraint): (r: Result<Pred, Fault>)
    ensures r.Err? <==> c.Fields? && "type" !in c.fields
    ensures r.Err? ==> r.error == InvalidConstraint(EventCategory, c)
    ensures r.Ok? ==> Gates(r.value) == {IsEvent}
  {
    match c
    case Fields(fields) =>
      if "type" in fields then Ok(EventFieldsMatch(fields))
      else Err(InvalidConstraint(EventCategory, c))
    case _ => Ok(FieldMatch(IsEvent, ["event", "type"], c.AsOperand()))
  }

  function WorkflowStepExecute(callbackId: Operand): (p: Pred)
    ensures Gates(p) == {IsEvent}
  {
    StepExecuteMatch(callbackId)
  }

  // ----- slash commands

  function Command(command: Operand): (p: Pred)
    ensures Gates(p) == {IsSlashCommand}
  {
    FieldMatch(IsSlashCommand, ["command"], command)
  }

  // ----- shortcuts

  /** `shortcut(constraints)`: a plain constraint matches either kind of
      shortcut; a dict needs both `type` and `callback_id`, and its `type`
      picks the global or the message shortcut. */
  function Shortcut(c: Constraint): (r: Result<Pred, Fault>)
    ensures c.IsPlain() ==> r.Ok? && Gates(r.value) == {IsShortcut}
    ensures c.Fields? && "callback_id" in c.fields && Says(c.fields, "type", "shortcut") ==>
              r == Ok(GlobalShortcut(c.fields["callback_id"]))
    ensures c.Fields? && "callback_id" in c.fields && Says(c.fields, "type", "message_action") ==>
              r == Ok(MessageShortcut(c.fields["callback_id"]))
    ensures r.Err? <==>
              c.Fields? && !("callback_id" in c.fields &&
                             (Says(c.fields, "type", "shortcut") || Says(c.fields, "type", "message_action")))
    ensures r.Err? ==> r.error == InvalidConstraint(ShortcutCategory, c)
  {
    match c
    case Fields(fields) =>
      if "type" in fields && "callback_id" in fields && fields["type"] == Text("shortcut") then
        Ok(GlobalShortcut(fields["callback_id"]))
      else if "type" in fields && "callback_id" in fields && fields["type"] == Text("message_action") then
        Ok(MessageShortcut(fields["callback_id"]))
      else
        Err(InvalidConstraint(ShortcutCategory, c))
    case _ => Ok(FieldMatch(IsShortcut, ["callback_id"], c.AsOperand()))
  }

  function GlobalShortcut(callbackId: Operand): (p: Pred)
    ensures Gates(p) == {IsGlobalShortcut}
  {
    FieldMatch(IsGlobalShortcut, ["callback_id"], callbackId)
  }

  function MessageShortcut(callbackId: Operand): (p: Pred)
    ensures Gates(p) == {IsMessageShortcut}
  {
    FieldMatch(IsMessageShortcut, ["callback_id"], callbackId)
  }

  // ----- actions

  /** `action(constraints)`: a plain constraint tries all five action kinds in
      turn; a dict is dispatched on its `type`, or treated as a block action
      when it has an `action_id` but no `type`. */
  function Action(c: Constraint): (r: Result<Pred, Fault>)
    ensures c.IsPlain() ==> r.Ok? && Gates(r.value) == ActionKinds
    ensures c.Fields? && Says(c.fields, "type", "block_actions") ==> r == Ok(BlockAction(c))
    ensures c.Fields? && Says(c.fields, "type", "interactive_message") ==>
              r == (if "callback_id" in c.fields then Ok(AttachmentAction(c.fields["callback_id"]))
                    else Err(KeyMissing("callback_id")))
    ensures c.Fields? && Says(c.fields, "type", "dialog_submission") ==>
              r == (if "callback_id" in c.fields then Ok(DialogSubmission(c.fields["callback_id"]))
                    else Err(KeyMissing("callback_id")))
    ensures c.Fields? && Says(c.fields, "type", "dialog_cancellation") ==>
              r == (if "callback_id" in c.fields then Ok(DialogCancellation(c.fields["callback_id"]))
                    else Err(KeyMissing("callback_id")))
    ensures c.Fields? && Says(c.fields, "type", "workflow_step_edit") ==>
              r == (if "callback_id" in c.fields then Ok(WorkflowStepEdit(c.fields["callback_id"]))
                    else Err(KeyMissing("callback_id")))
    ensures c.Fields? && "type" in c.fields && c.fields["type"] !in ActionTypes ==>
              r == Err(UnsupportedType(c.fields["type"]))
    ensures c.Fields? && "type" !in c.fields && "action_id" in c.fields ==> r == Ok(BlockAction(c))
    ensures c.Fields? && "type" !in c.fields && "action_id" !in c.fields ==>
              r == Err(InvalidConstraint(ActionCategory, c))
  {
    match c
    case Fields(fields) =>
      if "type" in fields then
        var actionType := fields["type"];
        if actionType == Text("block_actions") then Ok(BlockAction(c))
        else if actionType == Text("interactive_message") then
          var callbackId :- Field(fields, "callback_id");
          Ok(AttachmentAction(callbackId))
        else if actionType == Text("dialog_submission") then
          var callbackId :- Field(fields, "callback_id");
          Ok(DialogSubmission(callbackId))
        else if actionType == Text("dialog_cancellation") then
          var callbackId :- Field(fields, "callback_id");
          Ok(DialogCancellation(callbackId))
        else if actionType == Text("workflow_step_edit") then
          var callbackId :- Field(fields, "callback_id");
          Ok(WorkflowStepEdit(callbackId))
        else Err(UnsupportedType(actionType))
      else if "action_id" in fields then Ok(BlockAction(c))
      else Err(InvalidConstraint(ActionCategory, c))
    case _ => Ok(AnyOf(PlainActionAlternatives(c)))
  }

  /** The five matchers a plain `action` constraint is the disjunction of, in source order. */
  function PlainActionAlternatives(c: Constraint): (ps: seq<Pred>)
    requires c.IsPlain()
    ensures |ps| == 5
    ensures forall i :: 0 <= i < 5 ==> Gates(ps[i]) == {ActionKindOrder[i]}
    ensures forall k :: k in ActionKinds <==> exists i :: 0 <= i < |ps| && k in Gates(ps[i])
  {
    var op := c.AsOperand();
    var ps := [BlockAction(c), AttachmentAction(op), DialogSubmission(op), DialogCancellation(op), WorkflowStepEdit(op)];
    assert IsBlockActions in Gates(ps[0]) && IsAttachmentAction in Gates(ps[1]) && IsDialogSubmission in Gates(ps[2]);
    assert IsDialogCancellation in Gates(ps[3]) && IsWorkflowStepEdit in Gates(ps[4]);
    ps
  }

  function BlockAction(c: Constraint): (p: Pred)
    ensures Gates(p) == {IsBlockActions}
  {
    BlockActionMatch(c)
  }

  function AttachmentAction(callbackId: Operand): (p: Pred)
    ensures Gates(p) == {IsAttachmentAction}
  {
    FieldMatch(IsAttachmentAction, ["callback_id"], callbackId)
  }

  function DialogSubmission(callbackId: Operand): (p: Pred)
    ensures Gates(p) == {IsDialogSubmission}
  {
    FieldMatch(IsDialogSubmission, ["callback_id"], callbackId)
  }

  function DialogCancellation(callbackId: Operand): (p: Pred)
    ensures Gates(p) == {IsDialogCancellation}
  {
    FieldMatch(IsDialogCancellation, ["callback_id"], callbackId)
  }

  function WorkflowStepEdit(callbackId: Operand): (p: Pred)
    ensures Gates(p) == {IsWorkflowStepEdit}
  {
    FieldMatch(IsWorkflowStepEdit, ["callback_id"], callbackId)
  }

  // ----- views

  /** `view(constraints)`: a plain constraint means a view submission; a dict's
      `type` picks submission or closing; anything else is rejected. */
  function View(c: Constraint): (r: Result<Pred, Fault>)
    ensures c.IsPlain() ==> r == Ok(ViewSubmission(c.AsOperand()))
    ensures c.Fields? && Says(c.fields, "type", "view_submission") ==>
              r == (if "callback_id" in c.fields then Ok(ViewSubmission(c.fields["callback_id"]))
                    else Err(KeyMissing("callback_id")))
    ensures c.Fields? && Says(c.fields, "type", "view_closed") ==>
              r == (if "callback_id" in c.fields then Ok(ViewClosed(c.fields["callback_id"]))
                    else Err(KeyMissing("callback_id")))
    ensures c.Fields? && !Says(c.fields, "type", "view_submission") && !Says(c.fields, "type", "view_closed") ==>
              r == Err(InvalidConstraint(ViewCategory, c))
  {
    match c
    case Fields(fields) =>
      if Says(fields, "type", "view_submission") then
        var callbackId :- Field(fields, "callback_id");
        Ok(ViewSubmission(callbackId))
      else if Says(fields, "type", "view_closed") then
        var callbackId :- Field(fields, "callback_id");
        Ok(ViewClosed(callbackId))
      else Err(InvalidConstraint(ViewCategory, c))
    case _ => Ok(ViewSubmission(c.AsOperand()))
  }

  function ViewSubmission(callbackId: Operand): (p: Pred)
    ensures Gates(p) == {IsViewSubmission}
  {
    FieldMatch(IsViewSubmission, ["view", "callback_id"], callbackId)
  }

  function ViewClosed(callbackId: Operand): (p: Pred)
    ensures Gates(p) == {IsViewClosed}
  {
    FieldMatch(IsViewClosed, ["view", "callback_id"], callbackId)
  }

  function WorkflowStepSave(callbackId: Operand): (p: Pred)
    ensures Gates(p) == {IsWorkflowStepSave}
  {
    FieldMatch(IsWorkflowStepSave, ["view", "callback_id"], callbackId)
  }

  // ----- options

  /** `options(constraints)`: a plain constraint tries block then dialog
      suggestions; in a dict `action_id` wins over `callback_id`. */
  function Options(c: Constraint): (r: Result<Pred, Fault>)
    ensures c.IsPlain() ==> r.Ok? && Gates(r.value) == {IsBlockSuggestion, IsDialogSuggestion}
    ensures c.Fields? && "action_id" in c.fields ==> r == Ok(BlockSuggestion(c.fields["action_id"]))
    ensures c.Fields? && "action_id" !in c.fields && "callback_id" in c.fields ==>
              r == Ok(DialogSuggestion(c.fields["callback_id"]))
    ensures c.Fields? && "action_id" !in c.fields && "callback_id" !in c.fields ==>
              r == Err(InvalidConstraint(OptionsCategory, c))
  {
    match c
    case Fields(fields) =>
      if "action_id" in fields then Ok(BlockSuggestion(fields["action_id"]))
      else if "callback_id" in fields then Ok(DialogSuggestion(fields["callback_id"]))
      else Err(InvalidConstraint(OptionsCategory, c))
    case _ => Ok(AnyOf(PlainOptionsAlternatives(c)))
  }

  /** The two matchers a plain `options` constraint is the disjunction of, in source order. */
  function PlainOptionsAlternatives(c: Constraint): (ps: seq<Pred>)
    requires c.IsPlain()
    ensures |ps| == 2
    ensures Gates(ps[0]) == {IsBlockSuggestion} && Gates(ps[1]) == {IsDialogSuggestion}
  {
    var op := c.AsOperand();
    var ps := [BlockSuggestion(op), DialogSuggestion(op)];
    assert IsBlockSuggestion in Gates(ps[0]) && IsDialogSuggestion in Gates(ps[1]);
    ps
  }

  function BlockSuggestion(actionId: Operand): (p: Pred)
    ensures Gates(p) == {IsBlockSuggestion}
  {
    FieldMatch(IsBlockSuggestion, ["action_id"], actionId)
  }

  function DialogSuggestion(callbackId: Operand): (p: Pred)
    ensures Gates(p) == {IsDialogSuggestion}
  {
    FieldMatch(IsDialogSuggestion, ["callback_id"], callbackId)
  }
}

=== FILE: constraints.dfy ===
/** Handler-registration constraints and the errors that building or
    evaluating a matcher can raise. */
module Constraints {
  import opened Results

  /** A compiled regular expression: its source text and its `re` flags
      (`re.I`, `re.M`, ... as the bitmask `re.compile` receives), which both
      change what `search` finds. Its search semantics are supplied by the
      environment (see `Matching.Env`). */
  datatype Pattern = Pattern(source: string, flags: nat)

  /** A Python value that ends up as the expected side of `_matches`: the
      whole constraint when it is a str or a Pattern, or one value of a
      constraint dict, which may be anything. */
  datatype Operand =
    | Null                     // Python None
    | Text(text: string)       // a str, compared for equality
    | Regex(pattern: Pattern)  // a compiled Pattern, searched for
    | Foreign                  // any other value (an int, a list, a dict, ...)

  /** The three shapes a builder accepts: a literal, a compiled pattern, or a dict. */
  datatype Constraint =
    | Literal(text: string)
    | Compiled(pattern: Pattern)
    | Fields(fields: map<string, Operand>)
  {
    /** True for the shapes `isinstance(constraints, (str, Pattern))` accepts. */
    predicate IsPlain() {
      !Fields?
    }

    /** A plain constraint as the operand it is handed to `_matches` as. */
    function AsOperand(): (op: Operand)
      requires IsPlain()
      ensures op.Text? || op.Regex?
      ensures Literal? <==> op.Text?
    {
      if Literal? then Text(text) else Regex(pattern)
    }
  }

  /** The builder that names itself in an "must be any of str, Pattern, and dict" error. */
  datatype Category = EventCategory | ShortcutCategory | ActionCategory | ViewCategory | OptionsCategory

  datatype Fault =
    | InvalidConstraint(category: Category, constraint: Constraint)  // BoltError: unrecognised constraint shape
    | UnsupportedType(actionType: Operand)                           // BoltError: "type: ... is unsupported"
    | InvalidOperand(operand: Operand)                               // BoltError: "must be either str or Pattern"
    | KeyMissing(key: string)                                        // KeyError
    | NotAMapping                                                    // TypeError/AttributeError: key access on a non-dict
    | NotAString                                                     // TypeError: Pattern.search on a non-string

  /** `constraints[key]` on a constraint dict. */
  function Field(fields: map<string, Operand>, key: string): (r: Result<Operand, Fault>)
    ensures r.Ok? <==> key in fields
    ensures r.Ok? ==> r.value == fields[key]
    ensures r.Err? ==> r.error == KeyMissing(key)
  {
    if key in fields then Ok(fields[key]) else Err(KeyMissing(key))
  }

  /** `constraints.get(key)`: an absent key reads as None. */
  function GetField(fields: map<string, Operand>, key: string): (r: Operand)
    // `.get` never raises: it is the subscript where that succeeds, and None where it raises
    ensures Field(fields, key).Ok? ==> r == Field(fields, key).value
    ensures Field(fields, key).Err? ==> r == Null
  {
    if key in fields then fields[key] else Null
  }

  /** `key in constraints and constraints[key] == t`. */
  function Says(fields: map<string, Operand>, key: string, t: string): (b: bool)
    // the membership test guards the subscript, so the test never raises
    ensures b <==> Field(fields, key) == Ok(Text(t))
  {
    key in fields && fields[key] == Text(t)
  }
}

=== FILE: matching.dfy ===
/** The matching primitive `_matches` and the collaborators it and the
    matchers depend on. */
module Matching {
  import opened Results
  import opened Constraints
  import opened Payload

  /** The code the matchers call but that is not part of this model: the
      `is_*` payload classifiers, `to_action`, and `Pattern.search` (true
      when the pattern occurs anywhere in the string). */
  datatype Env = Env(
    holds: (Classifier, Json) -> bool,
    toAction: Json -> Json,
    search: (Pattern, string) -> bool)

  /** When a string satisfies an expected operand: equality for a str,
      an unanchored search for a Pattern, never for None or another value. */
  predicate Satisfies(env: Env, want: Operand, s: string) {
    match want
    case Text(t) => s == t
    case Regex(p) => env.search(p, s)
    case _ => false
  }

  /** `_matches(str_or_pattern, input)`. */
  function Matches(env: Env, want: Operand, input: Json): (r: Result<bool, Fault>)
    // an absent constraint or an absent input never matches and never raises
    ensures want.Null? || input.JNull? ==> r == Ok(false)
    // a literal never raises and matches exactly the equal string
    ensures want.Text? ==> r == Ok(input == JStr(want.text))
    // it is true precisely on a string that satisfies the operand
    ensures r == Ok(true) <==> input.JStr? && Satisfies(env, want, input.s)
    // on a string, a str or Pattern never raises: the result is whether the string satisfies it
    ensures input.JStr? && !want.Foreign? ==> r == Ok(Satisfies(env, want, input.s))
    // a value that is neither str nor Pattern is a configuration error, not a miss
    ensures want.Foreign? && !input.JNull? ==> r == Err(InvalidOperand(want))
    // a pattern searched in a non-string raises
    ensures want.Regex? && !input.JNull? && !input.JStr? ==> r == Err(NotAString)
  {
    if want.Null? || input.JNull? then Ok(false)
    else
      match want
      case Text(t) => Ok(input == JStr(t))
      case Regex(p) => if input.JStr? then Ok(env.search(p, input.s)) else Err(NotAString)
      case Foreign => Err(InvalidOperand(want))
  }
}

=== FILE: payload.dfy ===
/** Inbound payload bodies and the payload kinds the classifiers recognise. */
module Payload {
  import opened Results
  import opened Constraints

  /** A decoded JSON body. */
  datatype Json =
    | JNull
    | JBool(b: bool)
    | JNum(n: int)
    | JStr(s: string)
    | JArr(items: seq<Json>)
    | JObj(fields: map<string, Json>)

  /** One value per `is_*` classifier the matchers call. */
  datatype Classifier =
    | IsSlashCommand
    | IsShortcut
    | IsGlobalShortcut
    | IsMessageShortcut
    | IsBlockActions
    | IsAttachmentAction
    | IsDialogSubmission
    | IsDialogCancellation
    | IsWorkflowStepEdit
    | IsEvent
    | IsViewSubmission
    | IsViewClosed
    | IsWorkflowStepSave
    | IsBlockSuggestion
    | IsDialogSuggestion

  /** `j[key]`: a KeyError on a dict without the key, a TypeError on anything but a dict. */
  function Subscript(j: Json, key: string): (r: Result<Json, Fault>)
    ensures r.Ok? <==> j.JObj? && key in j.fields
    ensures r.Ok? ==> r.value == j.fields[key]
    ensures j.JObj? && key !in j.fields ==> r == Err(KeyMissing(key))
  {
    match j
    case JObj(fields) => if key in fields then Ok(fields[key]) else Err(KeyMissing(key))
    case _ => Err(NotAMapping)
  }

  /** `j[path[0]][path[1]]...`, raising at the first step that fails. */
  function Lookup(j: Json, path: seq<string>): (r: Result<Json, Fault>)
    ensures |path| == 0 ==> r == Ok(j)
    // the first step that fails raises its own exception
    ensures |path| > 0 && Subscript(j, path[0]).Err? ==> r == Subscript(j, path[0])
    // every step of a successful lookup lands on a dict holding the next key
    ensures r.Ok? && |path| > 0 ==> j.JObj? && path[0] in j.fields
    decreases |path|
  {
    if |path| == 0 then Ok(j)
    else
      var child :- Subscript(j, path[0]);
      Lookup(child, path[1..])
  }

  /** `j[p...][q...]` is `j[(p + q)...]`: a chain of subscripts may be split anywhere.
      A stand-alone fact about `Lookup`; no other contract depends on it. */
  lemma {:induction false} LookupAppend(j: Json, p: seq<string>, q: seq<string>)
    ensures Lookup(j, p + q) == (match Lookup(j, p) case Ok(v) => Lookup(v, q) case Err(e) => Err(e))
    decreases |p|
  {
    if |p| == 0 {
      assert p + q == q;
    } else {
      assert (p + q)[0] == p[0];
      assert (p + q)[1..] == p[1..] + q;
      var child := Subscript(j, p[0]);
      if child.Ok? {
        LookupAppend(child.value, p[1..], q);
      }
    }
  }

  /** `j.get(key)`: None for a missing key, an AttributeError on anything but a dict. */
  function Get(j: Json, key: string): (r: Result<Json, Fault>)
    ensures r.Ok? <==> j.JObj?
    ensures r.Ok? && key in j.fields ==> r.value == j.fields[key]
    ensures r.Ok? && key !in j.fields ==> r.value == JNull
  {
    match j
    case JObj(fields) => Ok(if key in fields then fields[key] else JNull)
    case _ => Err(NotAMapping)
  }

  /** `key in j` for a dict. */
  predicate Has(j: Json, key: string) {
    j.JObj? && key in j.fields
  }
}

=== FILE: predicates.dfy ===
/** The predicates the builders close over, and how they are evaluated on
    a payload body. Each constructor stands for one shape of closure the
    builders create; `Or` is Python's short-circuiting `or`. */
module Predicates {
  import opened Results
  import opened Constraints
  import opened Payload
  import opened Matching

  datatype Pred =
      /** `is_<kind>(body) and _matches(want, body[path...])` */
    | FieldMatch(kind: Classifier, path: seq<string>, want: Operand)
      /** the closure `event` builds for a dict constraint with a `type` key */
    | EventFieldsMatch(fields: map<string, Operand>)
      /** the closure `workflow_step_execute` builds */
    | StepExecuteMatch(callbackId: Operand)
      /** `_block_action(constraints, body)` */
    | BlockActionMatch(constraint: Constraint)
      /** `left or right` */
    | Or(left: Pred, right: Pred)

  /** The classifiers guarding a predicate: one of them must hold for it to be true. */
  function Gates(p: Pred): set<Classifier> {
    match p
    case FieldMatch(kind, _, _) => {kind}
    case EventFieldsMatch(_) => {IsEvent}
    case StepExecuteMatch(_) => {IsEvent}
    case BlockActionMatch(_) => {IsBlockActions}
    case Or(left, right) => Gates(left) + Gates(right)
  }

  /** Evaluating a predicate on a body: the boolean it returns or the exception it raises. */
  function Eval(env: Env, p: Pred, body: Json): (r: Result<bool, Fault>)
    // a match needs one of the guarding classifiers to accept the payload
    ensures r == Ok(true) ==> exists k :: k in Gates(p) && env.holds(k, body)
  {
    match p
    case FieldMatch(kind, path, want) =>
      if !env.holds(kind, body) then Ok(false)
      else
        var actual :- Lookup(body, path);
        Matches(env, want, actual)
    case EventFieldsMatch(fields) => EvalEventFields(env, fields, body)
    case StepExecuteMatch(callbackId) => EvalStepExecute(env, callbackId, body)
    case BlockActionMatch(c) => EvalBlockAction(env, c, body)
    case Or(left, right) =>
      var l :- Eval(env, left, body);
      if l then Ok(true) else Eval(env, right, body)
  }

  /** An event whose `type` matches and whose `subtype` agrees with the
      constraint: a `subtype` of None demands that the event carry none. */
  function EvalEventFields(env: Env, fields: map<string, Operand>, body: Json): (r: Result<bool, Fault>)
    // a match is an event whose `type` is a string satisfying the constraint's `type`
    ensures r == Ok(true) ==>
              && env.holds(IsEvent, body) && "type" in fields
              && Subscript(body, "event").Ok? && Has(Subscript(body, "event").value, "type")
              && Subscript(body, "event").value.fields["type"].JStr?
              && Satisfies(env, fields["type"], Subscript(body, "event").value.fields["type"].s)
    // under `subtype: None` a matching event carries no subtype
    ensures r == Ok(true) && Subscript(body, "event").Ok? && "subtype" in fields && fields["subtype"].Null? ==>
              !Has(Subscript(body, "event").value, "subtype")
    // under any other `subtype` a matching event carries a subtype string satisfying it
    ensures r == Ok(true) && Subscript(body, "event").Ok? && "subtype" in fields && !fields["subtype"].Null? ==>
              && Has(Subscript(body, "event").value, "subtype")
              && Subscript(body, "event").value.fields["subtype"].JStr?
              && Satisfies(env, fields["subtype"], Subscript(body, "event").value.fields["subtype"].s)
  {
    if !env.holds(IsEvent, body) then Ok(false)
    else
      var event :- Subscript(body, "event");
      var wantType :- Field(fields, "type");
      var actualType :- Subscript(event, "type");
      var typeMatched :- Matches(env, wantType, actualType);
      if !typeMatched then Ok(false)
      else if "subtype" in fields then
        if fields["subtype"].Null? then Ok(!Has(event, "subtype"))
        else if !Has(event, "subtype") then Ok(false)
        else Matches(env, fields["subtype"], event.fields["subtype"])
      else Ok(true)
  }

  /** A `workflow_step_execute` event carrying a `workflow_step` and a matching `callback_id`. */
  function EvalStepExecute(env: Env, callbackId: Operand, body: Json): (r: Result<bool, Fault>)
    // a match is a `workflow_step_execute` event with a `workflow_step` and a satisfying `callback_id`
    ensures r == Ok(true) ==>
              && env.holds(IsEvent, body)
              && Lookup(body, ["event", "type"]) == Ok(JStr("workflow_step_execute"))
              && Subscript(body, "event").Ok? && Has(Subscript(body, "event").value, "workflow_step")
              && Lookup(body, ["event", "callback_id"]).Ok? && Lookup(body, ["event", "callback_id"]).value.JStr?
              && Satisfies(env, callbackId, Lookup(body, ["event", "callback_id"]).value.s)
  {
    if !env.holds(IsEvent, body) then Ok(false)
    else
      var eventType :- Lookup(body, ["event", "type"]);
      var isStep :- Matches(env, Text("workflow_step_execute"), eventType);
      if !isStep then Ok(false)
      else
        // `body["event"]` cannot raise here: the lookup above went through it
        var event := body.fields["event"];
        if !Has(event, "workflow_step") then Ok(false)
        else
          var actual :- Lookup(body, ["event", "callback_id"]);
          Matches(env, callbackId, actual)
  }

  /** `_block_action`: a plain constraint matches the action's `action_id`; a
      dict matches `action_id` and, unless its `block_id` is absent or None,
      `block_id` too. Both halves are evaluated before they are combined. */
  function EvalBlockAction(env: Env, c: Constraint, body: Json): (r: Result<bool, Fault>)
    ensures !env.holds(IsBlockActions, body) ==> r == Ok(false)
    // a match is a block action whose `action_id` is a string satisfying the constraint's
    ensures r == Ok(true) ==>
              && env.holds(IsBlockActions, body)
              && Subscript(env.toAction(body), "action_id").Ok?
              && Subscript(env.toAction(body), "action_id").value.JStr?
              && (c.IsPlain() ==> Satisfies(env, c.AsOperand(), Subscript(env.toAction(body), "action_id").value.s))
              && (c.Fields? ==> "action_id" in c.fields
                                && Satisfies(env, c.fields["action_id"], Subscript(env.toAction(body), "action_id").value.s))
    // and, when the dict names a `block_id`, whose `block_id` matches it too
    ensures r == Ok(true) && c.Fields? && !GetField(c.fields, "block_id").Null? ==>
              BlockIdMatches(env, GetField(c.fields, "block_id"), env.toAction(body)) == Ok(true)
  {
    if !env.holds(IsBlockActions, body) then Ok(false)
    else
      var action := env.toAction(body);
      match c
      case Fields(fields) =>
        var blockId := GetField(fields, "block_id");
        var blockIdMatched :- if blockId.Null? then Ok(true) else BlockIdMatches(env, blockId, action);
        var wantActionId :- Field(fields, "action_id");
        var actionId :- Subscript(action, "action_id");
        var actionIdMatched :- Matches(env, wantActionId, actionId);
        Ok(blockIdMatched && actionIdMatched)
      case _ =>
        var actionId :- Subscript(action, "action_id");
        Matches(env, c.AsOperand(), actionId)
  }

  /** `_matches(block_id, action.get("block_id"))` */
  function BlockIdMatches(env: Env, want: Operand, action: Json): (r: Result<bool, Fault>)
    ensures r == Ok(true) <==>
              Get(action, "block_id").Ok? && Get(action, "block_id").value.JStr?
              && Satisfies(env, want, Get(action, "block_id").value.s)
    // an action without a `block_id` is a plain miss, an action that is not a dict raises
    ensures action.JObj? && "block_id" !in action.fields ==> r == Ok(false)
    ensures !action.JObj? ==> r == Err(NotAMapping)
  {
    var actual :- Get(action, "block_id");
    Matches(env, want, actual)
  }

  /** `ps[0] or ps[1] or ...`, folded to the right (`or` is associative, see `OrAssociative`). */
  function AnyOf(ps: seq<Pred>): (p: Pred)
    requires |ps| > 0
    ensures forall k :: k in Gates(p) <==> exists i :: 0 <= i < |ps| && k in Gates(ps[i])
    decreases |ps|
  {
    if |ps| == 1 then ps[0]
    else
      var rest := AnyOf(ps[1..]);
      assert forall i :: 1 <= i < |ps| ==> ps[i] == ps[1..][i - 1];
      Or(ps[0], rest)
  }

  /** A payload that none of a predicate's guarding classifiers accept never
      matches it, and evaluating it raises nothing. */
  lemma {:induction false} GatedByClassifiers(env: Env, p: Pred, body: Json)
    requires forall k :: k in Gates(p) ==> !env.holds(k, body)
    ensures Eval(env, p, body) == Ok(false)
  {
    match p
    case Or(left, right) =>
      GatedByClassifiers(env, left, body);
      GatedByClassifiers(env, right, body);
    case _ =>
  }

  /** Python's `or` groups to the left; the right fold used by `AnyOf` agrees with it. */
  lemma OrAssociative(env: Env, a: Pred, b: Pred, c: Pred, body: Json)
    ensures Eval(env, Or(Or(a, b), c), body) == Eval(env, Or(a, Or(b, c)), body)
  {
  }

  /** When every alternative evaluates to false, so does the disjunction. */
  lemma {:induction false} AnyOfAllFalse(env: Env, ps: seq<Pred>, body: Json)
    requires |ps| > 0
    requires forall i :: 0 <= i < |ps| ==> Eval(env, ps[i], body) == Ok(false)
    ensures Eval(env, AnyOf(ps), body) == Ok(false)
    decreases |ps|
  {
    if |ps| > 1 {
      assert forall i :: 0 <= i < |ps| - 1 ==> ps[1..][i] == ps[i + 1];
      AnyOfAllFalse(env, ps[1..], body);
    }
  }

  /** Short-circuiting: the first alternative that does not evaluate to false
      (it matched, or it raised) decides the disjunction; later ones are never looked at. */
  lemma {:induction false} AnyOfFirstDecisive(env: Env, ps: seq<Pred>, k: nat, body: Json)
    requires k < |ps|
    requires forall i :: 0 <= i < k ==> Eval(env, ps[i], body) == Ok(false)
    requires Eval(env, ps[k], body) != Ok(false)
    ensures Eval(env, AnyOf(ps), body) == Eval(env, ps[k], body)
    decreases |ps|
  {
    if |ps| > 1 && k > 0 {
      assert forall i :: 0 <= i < k - 1 ==> ps[1..][i] == ps[i + 1];
      AnyOfFirstDecisive(env, ps[1..], k - 1, body);
    }
  }

  /** When all alternatives but one evaluate to false, the disjunction is that one. */
  lemma AnyOfOneLive(env: Env, ps: seq<Pred>, k: nat, body: Json)
    requires k < |ps|
    requires forall i :: 0 <= i < |ps| && i != k ==> Eval(env, ps[i], body) == Ok(false)
    ensures Eval(env, AnyOf(ps), body) == Eval(env, ps[k], body)
  {
    if Eval(env, ps[k], body) == Ok(false) {
      AnyOfAllFalse(env, ps, body);
    } else {
      AnyOfFirstDecisive(env, ps, k, body);
    }
  }

  /** When no alternative raises, the disjunction is true exactly when some alternative is. */
  lemma {:induction false} AnyOfAllDefined(env: Env, ps: seq<Pred>, body: Json)
    requires |ps| > 0
    requires forall i :: 0 <= i < |ps| ==> Eval(env, ps[i], body).Ok?
    ensures Eval(env, AnyOf(ps), body) == Ok(exists i :: 0 <= i < |ps| && Eval(env, ps[i], body).value)
    decreases |ps|
  {
    if |ps| > 1 {
      assert forall i :: 0 <= i < |ps| - 1 ==> ps[1..][i] == ps[i + 1];
      AnyOfAllDefined(env, ps[1..], body);
      if Eval(env, ps[0], body).value {
        assert Eval(env, ps[0], body).value;
      } else {
        var rest := exists i :: 0 <= i < |ps| - 1 && Eval(env, ps[1..][i], body).value;
        if rest {
          var i :| 0 <= i < |ps| - 1 && Eval(env, ps[1..][i], body).value;
          assert Eval(env, ps[i + 1], body).value;
        }
      }
    }
  }
}

=== FILE: registrations.dfy ===
/** The event registrations of the sample application, checked on concrete
    payloads: a deleted-message event and a plain message event. */
module Registrations {
  import opened Results
  import opened Constraints
  import opened Payload
  import opened Matching
  import opened Predicates
  import opened Builtins

  /** `{"event": {"type": "message", "subtype": "message_deleted"}}` */
  const DeletedMessage: Json :=
    JObj(map["event" := JObj(map["type" := JStr("message"), "subtype" := JStr("message_deleted")])])

  /** `{"event": {"type": "message"}}` */
  const PlainMessage: Json :=
    JObj(map["event" := JObj(map["type" := JStr("message")])])

  /** `{type: "message", subtype: "message_deleted"}` picks out the deleted message;
      `{type: "message"}` accepts both; `{type: "message", subtype: None}` only the
      message without a subtype. */
  lemma MessageRegistrations(env: Env)
    requires env.holds(IsEvent, DeletedMessage) && env.holds(IsEvent, PlainMessage)
    ensures var deleted := Event(Fields(map["type" := Text("message"), "subtype" := Text("message_deleted")]));
            deleted.Ok? && Eval(env, deleted.value, DeletedMessage) == Ok(true)
                        && Eval(env, deleted.value, PlainMessage) == Ok(false)
    ensures var any := Event(Fields(map["type" := Text("message")]));
            any.Ok? && Eval(env, any.value, DeletedMessage) == Ok(true)
                    && Eval(env, any.value, PlainMessage) == Ok(true)
    ensures var bare := Event(Fields(map["type" := Text("message"), "subtype" := Null]));
            bare.Ok? && Eval(env, bare.value, DeletedMessage) == Ok(false)
                     && Eval(env, bare.value, PlainMessage) == Ok(true)
  {
  }
}

=== FILE: results.dfy ===
/** The outcome of a Python call that may raise. */
module Results {

  /** `Ok` carries the returned value, `Err` the exception that was raised instead.
      Failure-compatible, so `var x :- E; ...` propagates the first exception. */
  datatype Result<+T, +E> = Ok(value: T) | Err(error: E) {

    predicate IsFailure() {
      Err?
    }

    function PropagateFailure<U>(): Result<U, E>
      requires Err?
    {
      Err(error)
    }

    function Extract(): T
      requires Ok?
    {
      value
    }
  }
}

=== FILE: semantics.dfy ===
/** What the built matchers mean on a payload, stated against the
    classifiers and `Satisfies` rather than against the predicates'
    definitions. */
module Semantics {
  import opened Results
  import opened Constraints
  import opened Payload
  import opened Matching
  import opened Predicates
  import opened Builtins

  /** The contract every single-kind matcher keeps: a payload of another kind
      gives false, a field that cannot be reached raises, a None field or a None
      constraint gives false, a string field matches when it satisfies the
      constraint, and any other field value never matches (a str constraint
      gives false, a Pattern raises). A constraint value that is neither None, a
      str nor a Pattern raises once the field is reached and is not None.
      Conversely, a match is a payload of the kind whose field is a string
      satisfying the constraint. */
  ghost predicate GuardedFieldMatch(env: Env, p: Pred, kind: Classifier, path: seq<string>,
                                    want: Operand, body: Json, s: string)
  {
    && (!env.holds(kind, body) ==> Eval(env, p, body) == Ok(false))
    && (env.holds(kind, body) && Lookup(body, path).Err? ==>
          Eval(env, p, body) == Err(Lookup(body, path).error))
    && (env.holds(kind, body) && Lookup(body, path).Ok? && (Lookup(body, path).value.JNull? || want.Null?) ==>
          Eval(env, p, body) == Ok(false))
    && (env.holds(kind, body) && Lookup(body, path) == Ok(JStr(s)) && !want.Foreign? ==>
          Eval(env, p, body) == Ok(Satisfies(env, want, s)))
    && (env.holds(kind, body) && Lookup(body, path).Ok?
        && !Lookup(body, path).value.JNull? && !Lookup(body, path).value.JStr? ==>
          && (want.Text? ==> Eval(env, p, body) == Ok(false))
          && (want.Regex? ==> Eval(env, p, body) == Err(NotAString)))
    && (env.holds(kind, body) && Lookup(body, path).Ok? && !Lookup(body, path).value.JNull? && want.Foreign? ==>
          Eval(env, p, body) == Err(InvalidOperand(want)))
    && (Eval(env, p, body) == Ok(true) ==>
          && env.holds(kind, body) && Lookup(body, path).Ok? && Lookup(body, path).value.JStr?
          && Satisfies(env, want, Lookup(body, path).value.s))
  }

  /** `kind` holds for the payload and none of the other classifiers in `among` does. */
  ghost predicate Exclusively(env: Env, body: Json, kind: Classifier, among: set<Classifier>) {
    env.holds(kind, body) && forall other :: other in among && other != kind ==> !env.holds(other, body)
  }

  lemma FieldMatchIsGuarded(env: Env, kind: Classifier, path: seq<string>, want: Operand, body: Json, s: string)
    ensures GuardedFieldMatch(env, FieldMatch(kind, path, want), kind, path, want, body, s)
  {
    var p := FieldMatch(kind, path, want);
    if env.holds(kind, body) {
      var actual := Lookup(body, path);
      assert actual.Ok? ==> Eval(env, p, body) == Matches(env, want, actual.value);
    }
  }

  // ----- events

  /** A plain event constraint is matched against `event.type` of event payloads only. */
  lemma EventPlainSemantics(env: Env, c: Constraint, body: Json, s: string)
    requires c.IsPlain()
    ensures Event(c).Ok?
    ensures GuardedFieldMatch(env, Event(c).value, IsEvent, ["event", "type"], c.AsOperand(), body, s)
  {
    FieldMatchIsGuarded(env, IsEvent, ["event", "type"], c.AsOperand(), body, s);
  }

  /** The `subtype` rule of a dict event constraint, for an event whose `type` is the string `t`:
      no `subtype` key means only `type` counts, `subtype: None` means the event must carry
      no subtype, and any other subtype must be present and match. */
  lemma EventSubtypeRule(env: Env, fields: map<string, Operand>, body: Json, event: map<string, Json>, t: string)
    requires "type" in fields && !fields["type"].Foreign?
    requires env.holds(IsEvent, body)
    requires Subscript(body, "event") == Ok(JObj(event))
    requires "type" in event && event["type"] == JStr(t)
    ensures Event(Fields(fields)).Ok?
    ensures !Satisfies(env, fields["type"], t) ==> Eval(env, Event(Fields(fields)).value, body) == Ok(false)
    ensures Satisfies(env, fields["type"], t) && "subtype" !in fields ==>
              Eval(env, Event(Fields(fields)).value, body) == Ok(true)
    ensures Satisfies(env, fields["type"], t) && "subtype" in fields && fields["subtype"].Null? ==>
              Eval(env, Event(Fields(fields)).value, body) == Ok("subtype" !in event)
    ensures Satisfies(env, fields["type"], t) && "subtype" in fields
            && (fields["subtype"].Text? || fields["subtype"].Regex?)
            && ("subtype" in event ==> event["subtype"].JStr?) ==>
              Eval(env, Event(Fields(fields)).value, body)
                == Ok("subtype" in event && Satisfies(env, fields["subtype"], event["subtype"].s))
  {
  }

  /** `workflow_step_execute` matches an event of that type carrying a `workflow_step`,
      by its `callback_id`: an event of any other `type` value, string or not, gives
      false, and the `callback_id` value, whatever it is, decides as `_matches` does. */
  lemma WorkflowStepExecuteSemantics(env: Env, callbackId: Operand, body: Json, event: map<string, Json>, s: string)
    requires env.holds(IsEvent, body)
    requires Subscript(body, "event") == Ok(JObj(event))
    requires "type" in event
    ensures event["type"] != JStr("workflow_step_execute") ==> Eval(env, WorkflowStepExecute(callbackId), body) == Ok(false)
    ensures "workflow_step" !in event ==> Eval(env, WorkflowStepExecute(callbackId), body) == Ok(false)
    ensures event["type"] == JStr("workflow_step_execute") && "workflow_step" in event && "callback_id" !in event ==>
              Eval(env, WorkflowStepExecute(callbackId), body) == Err(KeyMissing("callback_id"))
    ensures event["type"] == JStr("workflow_step_execute") && "workflow_step" in event && "callback_id" in event ==>
              Eval(env, WorkflowStepExecute(callbackId), body) == Matches(env, callbackId, event["callback_id"])
    ensures event["type"] == JStr("workflow_step_execute") && "workflow_step" in event && "callback_id" in event
            && event["callback_id"] == JStr(s) && !callbackId.Foreign? ==>
              Eval(env, WorkflowStepExecute(callbackId), body) == Ok(Satisfies(env, callbackId, s))
  {
  }

  // ----- single-kind builders

  lemma CommandSemantics(env: Env, command: Operand, body: Json, s: string)
    ensures GuardedFieldMatch(env, Command(command), IsSlashCommand, ["command"], command, body, s)
  {
    FieldMatchIsGuarded(env, IsSlashCommand, ["command"], command, body, s);
  }

  /** A plain shortcut constraint matches a shortcut of either kind by `callback_id`;
      the global and message variants each match their own kind only. */
  lemma ShortcutSemantics(env: Env, c: Constraint, callbackId: Operand, body: Json, s: string)
    requires c.IsPlain()
    ensures Shortcut(c).Ok?
    ensures GuardedFieldMatch(env, Shortcut(c).value, IsShortcut, ["callback_id"], c.AsOperand(), body, s)
    ensures GuardedFieldMatch(env, GlobalShortcut(callbackId), IsGlobalShortcut, ["callback_id"], callbackId, body, s)
    ensures GuardedFieldMatch(env, MessageShortcut(callbackId), IsMessageShortcut, ["callback_id"], callbackId, body, s)
  {
    FieldMatchIsGuarded(env, IsShortcut, ["callback_id"], c.AsOperand(), body, s);
    FieldMatchIsGuarded(env, IsGlobalShortcut, ["callback_id"], callbackId, body, s);
    FieldMatchIsGuarded(env, IsMessageShortcut, ["callback_id"], callbackId, body, s);
  }

  /** The four non-block action matchers each match their own kind by `callback_id`. */
  lemma CallbackActionSemantics(env: Env, callbackId: Operand, body: Json, s: string)
    ensures GuardedFieldMatch(env, AttachmentAction(callbackId), IsAttachmentAction, ["callback_id"], callbackId, body, s)
    ensures GuardedFieldMatch(env, DialogSubmission(callbackId), IsDialogSubmission, ["callback_id"], callbackId, body, s)
    ensures GuardedFieldMatch(env, DialogCancellation(callbackId), IsDialogCancellation, ["callback_id"], callbackId, body, s)
    ensures GuardedFieldMatch(env, WorkflowStepEdit(callbackId), IsWorkflowStepEdit, ["callback_id"], callbackId, body, s)
  {
    FieldMatchIsGuarded(env, IsAttachmentAction, ["callback_id"], callbackId, body, s);
    FieldMatchIsGuarded(env, IsDialogSubmission, ["callback_id"], callbackId, body, s);
    FieldMatchIsGuarded(env, IsDialogCancellation, ["callback_id"], callbackId, body, s);
    FieldMatchIsGuarded(env, IsWorkflowStepEdit, ["callback_id"], callbackId, body, s);
  }

  /** The view matchers match their own kind by `view.callback_id`. */
  lemma ViewSemantics(env: Env, callbackId: Operand, body: Json, s: string)
    ensures GuardedFieldMatch(env, ViewSubmission(callbackId), IsViewSubmission, ["view", "callback_id"], callbackId, body, s)
    ensures GuardedFieldMatch(env, ViewClosed(callbackId), IsViewClosed, ["view", "callback_id"], callbackId, body, s)
    ensures GuardedFieldMatch(env, WorkflowStepSave(callbackId), IsWorkflowStepSave, ["view", "callback_id"], callbackId, body, s)
  {
    FieldMatchIsGuarded(env, IsViewSubmission, ["view", "callback_id"], callbackId, body, s);
    FieldMatchIsGuarded(env, IsViewClosed, ["view", "callback_id"], callbackId, body, s);
    FieldMatchIsGuarded(env, IsWorkflowStepSave, ["view", "callback_id"], callbackId, body, s);
  }

  /** Block suggestions match by `action_id`, dialog suggestions by `callback_id`. */
  lemma SuggestionSemantics(env: Env, want: Operand, body: Json, s: string)
    ensures GuardedFieldMatch(env, BlockSuggestion(want), IsBlockSuggestion, ["action_id"], want, body, s)
    ensures GuardedFieldMatch(env, DialogSuggestion(want), IsDialogSuggestion, ["callback_id"], want, body, s)
  {
    FieldMatchIsGuarded(env, IsBlockSuggestion, ["action_id"], want, body, s);
    FieldMatchIsGuarded(env, IsDialogSuggestion, ["callback_id"], want, body, s);
  }

  // ----- block actions

  /** A block-action matcher never matches (nor raises on) a payload that is not
      `block_actions`; a plain constraint is matched against the action's `action_id`,
      whatever its value, as `_matches` does. */
  lemma BlockActionSemantics(env: Env, c: Constraint, body: Json, a: string)
    ensures !env.holds(IsBlockActions, body) ==> Eval(env, BlockAction(c), body) == Ok(false)
    ensures c.IsPlain() && env.holds(IsBlockActions, body) && Subscript(env.toAction(body), "action_id").Ok? ==>
              Eval(env, BlockAction(c), body) == Matches(env, c.AsOperand(), Subscript(env.toAction(body), "action_id").value)
    ensures c.IsPlain() && env.holds(IsBlockActions, body) && Subscript(env.toAction(body), "action_id").Err? ==>
              Eval(env, BlockAction(c), body) == Err(Subscript(env.toAction(body), "action_id").error)
    ensures c.IsPlain() && env.holds(IsBlockActions, body)
            && Subscript(env.toAction(body), "action_id") == Ok(JStr(a)) ==>
              Eval(env, BlockAction(c), body) == Ok(Satisfies(env, c.AsOperand(), a))
  {
  }

  /** Python's `x and y` where both operands were already evaluated: the first
      exception raised wins, otherwise the conjunction. */
  function BothEvaluated(x: Result<bool, Fault>, y: Result<bool, Fault>): (r: Result<bool, Fault>)
    ensures r == Ok(true) <==> x == Ok(true) && y == Ok(true)
    ensures x.Err? ==> r == x
    ensures x.Ok? && y.Err? ==> r == y
  {
    match x
    case Err(e) => Err(e)
    case Ok(vx) => match y case Err(e) => Err(e) case Ok(vy) => Ok(vx && vy)
  }

  /** A dict block-action constraint: an absent or None `block_id` is "don't care";
      otherwise the action's `block_id` (None when absent) and its `action_id` are
      both tested, in that order, and must both match. */
  lemma BlockActionDictSemantics(env: Env, fields: map<string, Operand>, body: Json,
                                 action: map<string, Json>, a: string, b: string)
    requires env.holds(IsBlockActions, body)
    requires env.toAction(body) == JObj(action)
    requires "action_id" in action && "action_id" in fields
    ensures GetField(fields, "block_id").Null? ==>
              Eval(env, BlockAction(Fields(fields)), body) == Matches(env, fields["action_id"], action["action_id"])
    ensures !GetField(fields, "block_id").Null? ==>
              Eval(env, BlockAction(Fields(fields)), body)
                == BothEvaluated(Matches(env, GetField(fields, "block_id"), if "block_id" in action then action["block_id"] else JNull),
                                 Matches(env, fields["action_id"], action["action_id"]))
    // the string cases, spelled out
    ensures action["action_id"] == JStr(a) && !fields["action_id"].Foreign? && GetField(fields, "block_id").Null? ==>
              Eval(env, BlockAction(Fields(fields)), body) == Ok(Satisfies(env, fields["action_id"], a))
    ensures action["action_id"] == JStr(a) && !fields["action_id"].Foreign? && !GetField(fields, "block_id").Foreign?
            && !GetField(fields, "block_id").Null? && "block_id" !in action ==>
              Eval(env, BlockAction(Fields(fields)), body) == Ok(false)
    ensures action["action_id"] == JStr(a) && !fields["action_id"].Foreign? && !GetField(fields, "block_id").Foreign?
            && !GetField(fields, "block_id").Null? && "block_id" in action && action["block_id"] == JStr(b) ==>
              Eval(env, BlockAction(Fields(fields)), body)
                == Ok(Satisfies(env, fields["block_id"], b) && Satisfies(env, fields["action_id"], a))
  {
  }

  /** A dict without `action_id` never matches a `block_actions` payload: the key
      is read when the payload is evaluated, not when built, and raises `KeyError`
      unless the `block_id` test before it has already raised. */
  lemma BlockActionWithoutActionId(env: Env, fields: map<string, Operand>, body: Json)
    requires env.holds(IsBlockActions, body)
    requires "action_id" !in fields
    // with no `block_id` to test, the missing key is what raises
    ensures GetField(fields, "block_id").Null? ==>
              Eval(env, BlockAction(Fields(fields)), body) == Err(KeyMissing("action_id"))
    // otherwise the `block_id` test runs first: its exception wins, and if it
    // raises nothing the missing `action_id` raises
    ensures !GetField(fields, "block_id").Null? ==>
              Eval(env, BlockAction(Fields(fields)), body)
                == (match BlockIdMatches(env, GetField(fields, "block_id"), env.toAction(body))
                    case Err(e) => Err(e)
                    case Ok(_) => Err(KeyMissing("action_id")))
  {
  }

  // ----- plain action and options constraints

  /** When none of the five matchers raises, a plain `action` constraint matches
      exactly when one of them does. */
  lemma ActionPlainIsDisjunction(env: Env, c: Constraint, body: Json)
    requires c.IsPlain()
    requires Eval(env, BlockAction(c), body).Ok?
    requires Eval(env, AttachmentAction(c.AsOperand()), body).Ok?
    requires Eval(env, DialogSubmission(c.AsOperand()), body).Ok?
    requires Eval(env, DialogCancellation(c.AsOperand()), body).Ok?
    requires Eval(env, WorkflowStepEdit(c.AsOperand()), body).Ok?
    ensures Action(c).Ok?
    ensures Eval(env, Action(c).value, body) == Ok(
              || Eval(env, BlockAction(c), body).value
              || Eval(env, AttachmentAction(c.AsOperand()), body).value
              || Eval(env, DialogSubmission(c.AsOperand()), body).value
              || Eval(env, DialogCancellation(c.AsOperand()), body).value
              || Eval(env, WorkflowStepEdit(c.AsOperand()), body).value)
  {
    var ps := PlainActionAlternatives(c);
    AnyOfAllDefined(env, ps, body);
    var any := exists i :: 0 <= i < |ps| && Eval(env, ps[i], body).value;
    if any {
      var i :| 0 <= i < |ps| && Eval(env, ps[i], body).value;
      assert i == 0 || i == 1 || i == 2 || i == 3 || i == 4;
    } else {
      assert !Eval(env, ps[0], body).value && !Eval(env, ps[1], body).value && !Eval(env, ps[2], body).value;
      assert !Eval(env, ps[3], body).value && !Eval(env, ps[4], body).value;
    }
  }

  /** The source writes the plain action matcher as `a or b or c or d or e`,
      which Python groups to the left; the right fold `AnyOf` evaluates the same. */
  lemma ActionPlainIsPythonChain(env: Env, c: Constraint, body: Json)
    requires c.IsPlain()
    ensures var ps := PlainActionAlternatives(c);
            Eval(env, Action(c).value, body)
              == Eval(env, Or(Or(Or(Or(ps[0], ps[1]), ps[2]), ps[3]), ps[4]), body)
  {
    var ps := PlainActionAlternatives(c);
    var t1, t2, t3 := ps[1..], ps[1..][1..], ps[1..][1..][1..];
    assert t3[1..] == [ps[4]] && AnyOf(t3[1..]) == ps[4];
    assert AnyOf(t3) == Or(ps[3], ps[4]);
    assert AnyOf(t2) == Or(ps[2], Or(ps[3], ps[4]));
    assert AnyOf(t1) == Or(ps[1], Or(ps[2], Or(ps[3], ps[4])));
    OrAssociative(env, Or(Or(ps[0], ps[1]), ps[2]), ps[3], ps[4], body);
    OrAssociative(env, Or(ps[0], ps[1]), ps[2], Or(ps[3], ps[4]), body);
    OrAssociative(env, ps[0], ps[1], Or(ps[2], Or(ps[3], ps[4])), body);
  }

  /** When the payload is classified as exactly one of the five action kinds, a plain
      `action` constraint behaves as that kind's own matcher (the `i`-th alternative,
      guarded by the `i`-th kind). */
  lemma ActionPlainExclusive(env: Env, c: Constraint, body: Json, i: nat)
    requires c.IsPlain() && i < 5
    requires Exclusively(env, body, ActionKindOrder[i], ActionKinds)
    ensures Action(c).Ok?
    ensures Eval(env, Action(c).value, body) == Eval(env, PlainActionAlternatives(c)[i], body)
  {
    var ps := PlainActionAlternatives(c);
    forall j | 0 <= j < 5 && j != i
      ensures ActionKindOrder[j] != ActionKindOrder[i] && !env.holds(ActionKindOrder[j], body)
    {
      DistinctActionKinds(i, j);
    }
    AnyOfExclusive(env, ps, ActionKindOrder, i, body);
  }

  lemma DistinctActionKinds(i: nat, j: nat)
    requires i < 5 && j < 5 && i != j
    ensures ActionKindOrder[i] in ActionKinds && ActionKindOrder[j] in ActionKinds
    ensures ActionKindOrder[i] != ActionKindOrder[j]
  {
  }

  /** A payload of none of the five action kinds never matches a plain `action`
      constraint, and evaluating it raises nothing. */
  lemma ActionPlainNoKind(env: Env, c: Constraint, body: Json)
    requires c.IsPlain()
    requires forall k :: k in ActionKinds ==> !env.holds(k, body)
    ensures Action(c).Ok?
    ensures Eval(env, Action(c).value, body) == Ok(false)
  {
    GatedByClassifiers(env, Action(c).value, body);
  }

  /** When neither matcher raises, a plain `options` constraint matches exactly when
      the block-suggestion or the dialog-suggestion matcher does. */
  lemma OptionsPlainIsDisjunction(env: Env, c: Constraint, body: Json)
    requires c.IsPlain()
    requires Eval(env, BlockSuggestion(c.AsOperand()), body).Ok?
    requires Eval(env, DialogSuggestion(c.AsOperand()), body).Ok?
    ensures Options(c).Ok?
    ensures Eval(env, Options(c).value, body) == Ok(Eval(env, BlockSuggestion(c.AsOperand()), body).value
                                                    || Eval(env, DialogSuggestion(c.AsOperand()), body).value)
  {
    var ps := PlainOptionsAlternatives(c);
    assert Options(c).value == AnyOf(ps);
    AnyOfAllDefined(env, ps, body);
    if Eval(env, ps[1], body).value {
      assert Eval(env, ps[1], body).value;
    }
  }

  /** When the payload is exactly one of the two suggestion kinds, a plain `options`
      constraint behaves as that kind's matcher. */
  lemma OptionsPlainExclusive(env: Env, c: Constraint, body: Json)
    requires c.IsPlain()
    ensures Options(c).Ok?
    ensures Exclusively(env, body, IsBlockSuggestion, {IsBlockSuggestion, IsDialogSuggestion}) ==>
              Eval(env, Options(c).value, body) == Eval(env, BlockSuggestion(c.AsOperand()), body)
    ensures Exclusively(env, body, IsDialogSuggestion, {IsBlockSuggestion, IsDialogSuggestion}) ==>
              Eval(env, Options(c).value, body) == Eval(env, DialogSuggestion(c.AsOperand()), body)
  {
    var ps := PlainOptionsAlternatives(c);
    var kinds := [IsBlockSuggestion, IsDialogSuggestion];
    assert Options(c).value == AnyOf(ps);
    if Exclusively(env, body, IsBlockSuggestion, {IsBlockSuggestion, IsDialogSuggestion}) {
      AnyOfExclusive(env, ps, kinds, 0, body);
    }
    if Exclusively(env, body, IsDialogSuggestion, {IsBlockSuggestion, IsDialogSuggestion}) {
      AnyOfExclusive(env, ps, kinds, 1, body);
    }
  }

  /** A disjunction of matchers each guarded by its own classifier behaves as the one
      whose classifier is the only one to hold. */
  lemma AnyOfExclusive(env: Env, ps: seq<Pred>, kinds: seq<Classifier>, i: nat, body: Json)
    requires |ps| == |kinds| && i < |ps|
    requires forall j :: 0 <= j < |ps| ==> Gates(ps[j]) == {kinds[j]}
    requires forall j :: 0 <= j < |ps| && j != i && kinds[j] != kinds[i] ==> !env.holds(kinds[j], body)
    requires forall j :: 0 <= j < |ps| && j != i ==> kinds[j] != kinds[i]
    ensures Eval(env, AnyOf(ps), body) == Eval(env, ps[i], body)
  {
    forall j | 0 <= j < |ps| && j != i
      ensures Eval(env, ps[j], body) == Ok(false)
    {
      GatedByClassifiers(env, ps[j], body);
    }
    AnyOfOneLive(env, ps, i, body);
  }
}
